=== FILE: README.md ===
# Symbol cache and task pool of spall-auto's pool test, in Dafny

This project models two sequential cores of a small C program. The program
profiles itself with spall-auto while running a toy thread pool.

**The address-to-name symbol cache of `spall_auto.h` (`AddrHash`).** This is
an open-addressing hash table with linear probing and no deletion.

- Entries are appended densely to `entries`.
- A power-of-two `hashes` array holds, per slot, either an entry index or -1.
- `ah_hash` is a Fibonacci multiplicative hash of the low 32 bits of the
  address.
- `ah_insert` probes from the home slot for a match or an empty slot.
- `ah_get` is lookup-or-insert. On a miss it asks the resolver `get_addr_name`.

The modules are:

- `PowersOfTwo` holds `next_pow2`.
- `SymbolCache` holds the data model, the probe as a recursive definition, and
  `ah_init`, `ah_insert` and `ah_get` as functions.
- `SymbolCacheLoops` holds the probe loops as written, each proved equal to
  the functional definition.
- `SymbolCacheProofs` holds the table invariant `Valid` and the consistency of
  insert and lookup. These are stated against the abstract contents
  `Find(entries, addr)`, the first entry recorded for an address.

**The per-thread task queue and the task counters of `main.c`.** Each thread
owns a singly linked list of tasks used as a LIFO stack: push prepends, pop
takes the head. Next to each list sit a thread's submitted and completed
counters, and the pool keeps the same two counters for all threads.

- `TaskQueue` holds push, pop, the locking wrappers, `thread_init`,
  `tpool_init` and the accounting invariant `Accounted`. Under `Accounted`,
  every queue holds exactly its thread's submitted-but-unfinished tasks, and
  the pool's counters are the sums of the threads' counters.
- `ThreadPool` holds `little_work` and one pass of the drain loop shared by
  `tpool_worker` and `tpool_wait`. It also holds that loop, `tpool_wait` for
  a pool without child threads, and `main` run on such a pool.

Modelling choices:

- The C masks with `& (len - 1)`. The model takes the remainder by `len`,
  which is the same value because `len` is always a power of two: `Valid`
  carries `IsPow2`, and `ah_init` establishes it. `WellFormed`, which the
  operations and the probe loops require, does not: on a slot array whose
  length is not a power of two they describe remainder probing, which the
  source never builds and where its mask would skip slots.
- The C updates `*ah` and its two heap buffers in place. The model returns
  a new `AddrHash` built from sequences, and the probe loops work on
  sequences rather than arrays. This changes nothing observable, because
  each table owns its buffers and nothing else points into them.
- The resolver `get_addr_name` is a parameter `resolve: Addr -> Option<Name>`.
  So is every value `rand()` returns.
- A thread's back-pointer to its pool is its position in `Pool.threads`.
- Each queue mutex is a `locked` flag. The `_safe` wrappers take it, do the
  operation and release it.

## Model

| member | source | states |
|---|---|---|
| PowersOfTwo.NextPow2 | spall_auto.h:77-80 | for 2 <= x <= 2^30, `1 << (64 - clzl(x - 1))` is a power of two with x <= r < 2x and r <= 2^30 |
| PowersOfTwo.NextPow2IsLeast | spall_auto.h:77-80 | no power of two that is at least x lies below next_pow2(x): the result is the least such power |
| SymbolCache.Hash | spall_auto.h:107-109 | the hash is a signed 32-bit value congruent modulo 2^32 to the low 32 address bits times 2654435769 |
| SymbolCache.HomeSlot | spall_auto.h:132-133 | the sign-extended hash masked to the table is a slot index below `hashes.len` |
| SymbolCache.ProbeVisitsEverySlotOnce | spall_auto.h:133-135 | over steps 0 .. len-1 the probe `(hv + i) & (len - 1)` visits exactly the slots 0 .. len-1, each at one step only |
| SymbolCache.ProbeFrom | spall_auto.h:134-149 | the probe stops at a matching entry, or at an empty slot, with every earlier probed slot holding another address; if it runs out, every probed slot holds another address |
| SymbolCache.ExhaustedMeansEverySlotPasses | spall_auto.h:134-152 | the probe runs out exactly when every slot of the table refers to an entry for another address |
| SymbolCache.Init | spall_auto.h:83-98 | `ah_init(size)` has no entries, capacity size, `next_pow2(size)` slots (a power of two in [size, 2 size)), every slot -1, and is a valid table |
| SymbolCache.Insert | spall_auto.h:131-153 | a present address leaves the table unchanged and succeeds. Failure happens exactly when every slot holds another address, and then nothing changes. The table changes exactly when the probe reaches an empty slot, and then the new address is appended at index `entries.len`, the first empty probed slot points at it, and no other slot changes |
| SymbolCache.Get | spall_auto.h:155-187 | a hit returns a stored name for the address and changes nothing. A full map returns nothing and changes nothing. At an empty slot, a failing resolver gives nothing and no change, and a succeeding one gives its name, inserted exactly as `ah_insert` does. Any change is such an insertion |
| SymbolCacheLoops.InsertLoop | spall_auto.h:131-153 | the counted probe loop with its early returns computes the same success flag and table as `Insert` |
| SymbolCacheLoops.GetLoop | spall_auto.h:155-187 | the counted probe loop with its early returns computes the same name and table as `Get` |
| SymbolCacheProofs.ValidSlotsAndAddressesDistinct | spall_auto.h:137-148 | in a valid table every non-(-1) slot holds an index below `entries.len`, no two slots hold the same index, and no two entries record the same address |
| SymbolCacheProofs.ProbeAgreesWithFind | spall_auto.h:134-152 | in a valid table the probe finds a match exactly when the entries record the address, and the match carries the recorded name; for an unrecorded address it stops at an empty slot exactly when one exists |
| SymbolCacheProofs.VacancyWhileEntriesFewerThanSlots | spall_auto.h:151-152 | while fewer entries are used than there are slots, some slot is empty, so the map can only be full once every slot is used |
| SymbolCacheProofs.PlaceKeepsValid | spall_auto.h:138-143 | recording a new address at the first empty slot of its probe keeps the table valid, and the address's probe then stops at the new entry |
| SymbolCacheProofs.InsertCorrect | spall_auto.h:131-153 | `ah_insert` keeps the table valid and succeeds exactly when the address is recorded or a slot is empty. Afterwards the address maps to its first name and every other address is as before |
| SymbolCacheProofs.GetCorrect | spall_auto.h:155-187 | `ah_get` keeps the table valid. A recorded address returns its recorded name with no change. An unrecorded one returns nothing and changes nothing when the resolver fails or no slot is empty, and otherwise inserts the resolved name as `ah_insert` would. The contents afterwards are the contents before plus the returned binding |
| SymbolCacheProofs.FirstInsertionWins | spall_auto.h:131-187 | after a successful `ah_insert(addr)`, `ah_get(addr)` hits, returns the first name recorded for addr, changes nothing and does not depend on the resolver |
| SymbolCacheProofs.InsertSucceedsBelowCapacity | spall_auto.h:134-152 | in a valid table with an unused allocated entry, `ah_insert` never reports the map full |
| TaskQueue.Push | main.c:83-96 | the queue becomes `[task] + old queue`, including the empty-queue branch when the node's `next` is NULL; the thread's and the pool's `tasks_total` rise by one; nothing else changes |
| TaskQueue.Pop | main.c:104-112 | NULL from an empty queue, with no change; otherwise the head is returned and the tail left, and only that queue changes |
| TaskQueue.PushThenPop | main.c:83-112 | popping right after a push returns the pushed task and restores the queue: last in, first out |
| TaskQueue.PushSafe | main.c:98-102 | locking, pushing and unlocking has exactly the effect of the push, and leaves the lock free |
| TaskQueue.PopSafe | main.c:114-119 | locking, popping and unlocking has exactly the effect of the pop, and leaves the lock free |
| TaskQueue.ThreadInit | main.c:159-164 | `thread_init` leaves an empty queue, a free lock and the given index, and keeps the counters the allocation left |
| TaskQueue.PoolInit | main.c:166-185 | `tpool_init(n)` has `thread_count == n + 1` threads; thread i has index i, an empty queue, a free lock and zero counters; the pool is running with zero counters, balanced and unlocked |
| TaskQueue.PendingIsQueued | main.c:129-143 | when every thread's queue holds its unfinished tasks, the sum of done counters is at most the sum of totals, and their difference is the number of queued tasks |
| TaskQueue.PoolPendingIsQueued | main.c:93-95 | under the accounting invariant, `pool.tasks_done <= pool.tasks_total` and the difference is the number of tasks in all queues |
| TaskQueue.PushKeepsAccounted | main.c:93-95 | a push keeps each queue equal to its thread's unfinished tasks and the pool counters equal to the sums |
| TaskQueue.PopSucceedsWhileBehind | main.c:129-137 | under the accounting invariant, a thread with `tasks_done < tasks_total` pops its queue's head, never NULL |
| ThreadPool.LittleWorkStep | main.c:197-213 | below 10000 submitted tasks, the effect is exactly one push of a task with the same argument onto thread `rand() % thread_count`, every other thread unchanged; otherwise nothing changes; done counters never change |
| ThreadPool.LittleWorkKeepsAccounted | main.c:197-213 | `little_work` keeps the accounting invariant |
| ThreadPool.RunOne | main.c:133-142 | a pass of the drain loop finds an empty queue exactly when the thread is caught up. Otherwise it pops the queue's head, runs that task on the popped pool (`little_work`, whose one child below 10000 is pushed onto thread `rand % thread_count`, as LittleWorkStep states) and counts it done on the thread and the pool; it keeps the accounting invariant and raises the total by one below 10000 and by zero from then on |
| ThreadPool.RunOneKeepsAccounted | main.c:133-142 | popping, running and counting one task keeps the accounting invariant |
| ThreadPool.DrainOwnQueue | main.c:129-143 | the inner worker loop ends with the thread caught up and its queue empty, keeps the accounting invariant, and never takes the pool's total past max(initial total, 10000). Only thread i runs tasks: the pool's done counter rises exactly as thread i's does, and every other thread keeps its done counter and at most gains tasks in front of its queue |
| ThreadPool.RunOneFramesOthers | main.c:133-142 | one pass of thread i's loop leaves every other thread's done counter alone and at most puts `little_work`'s child in front of its queue; the pool's done counter rises by exactly thread i's increment |
| ThreadPool.OthersOnlyGainTrans | main.c:129-143 | the frame of two consecutive passes composes into the frame of the whole loop |
| ThreadPool.Wait | main.c:215-231 | for a single-thread pool `tpool_wait` ends with every task done and the queue empty; if work was pending, the pool was given exactly max(initial total, 10000) tasks |
| ThreadPool.SubmitInitial | main.c:243-248 | on a pool of any size, the loop puts tasks with arguments initial down to 1 in front of thread 0's queue, adds `initial` to the pool's and thread 0's totals, leaves every other thread unchanged and keeps the accounting invariant |
| ThreadPool.SubmitUnderLock | main.c:242-249 | taking thread 0's lock, submitting and releasing it leaves a balanced, unlocked pool whose thread 0 holds exactly the `initial` tasks, none done, with the other threads untouched |
| ThreadPool.StartMain | main.c:238-249 | after `tpool_init(childCount)` and the locked submission, the pool has childCount + 1 threads, thread 0 holds tasks initial down to 1, every other thread is empty with zero counters, and the pool counts `initial` tasks, none done |
| ThreadPool.RunMain | main.c:233-252 | `main` on a single-thread pool ends with `tasks_done == tasks_total == max(initial, 10000)` |

## Left out

- Threads and synchronisation are not modelled: `pthread_create` and `pthread_join`, real mutexes, `_Atomic` and `_Thread_local`. Everything runs sequentially, so the locks are flags that are always free when taken.
- ThreadPool.Wait: stated only for a pool without child threads. The source runs `tpool_init(8)`, and its correctness then depends on the other threads' interleaving.
- ThreadPool.RunMain: calls `StartMain(0, initial)`, that is `tpool_init(0)` instead of `tpool_init(8)`, because `Wait` is stated for a single thread only. `StartMain` and `SubmitInitial` themselves hold for any child count, 8 included. It takes the initial task count as a parameter; the source's count of 10 is one instance.
- ThreadPool.DrainOwnQueue: the `printf` and `exit(0)` of the "WTF" branch, and the `break` in `tpool_wait`, are not modelled as behaviour. The model shows they are unreachable under the accounting invariant: the loop stops only when the thread is caught up.
- The outer loop of `tpool_worker` is not modelled. That covers the `running` check and `sched_yield`, which only matter to concurrent threads. `Pool.running` is set by `tpool_init` and otherwise unused here.
- `tpool_destroy` (main.c:187-195) is thread joining and freeing, so it is not modelled. Its loop joins threads 1 .. thread_count-2 and so never joins the last worker; the model makes no claim about joins.
- `rand()` is a parameter: each value it returns is an input.
- Counters are unbounded naturals. The source's `uint64_t` counters cannot wrap within the program's 10000-task budget.
- SymbolCache.Hash: the C multiplies a `uint32_t` by a `long` constant, and the product can exceed the signed 64-bit range. That is undefined behaviour in C. The model takes the two's-complement low 32 bits, which is what the conversion to `int` yields on the targets the header supports.
- PowersOfTwo.NextPow2: requires 2 <= x <= 2^30. At x = 1, `clzl(0)` is undefined. Above 2^30, the `int` shift overflows, which the source's comment at line 77 acknowledges.
- SymbolCache.Insert: requires `InsertFits`, because `ah_insert` writes `entries.arr[entries.len]` without comparing `len` with `cap`. A new entry with a full entry array is an out-of-bounds write in the source, which the model does not invent behaviour for. `InsertSucceedsBelowCapacity` shows that every valid table meets this need, and `ah_insert` succeeds, while fewer than `cap` entries are used, whatever its slot count. Because `ah_init` makes the slot count a power of two at least `cap`, the sizes the source uses leave spare slots (10000 entries over 16384 slots, 100000 over 131072): the first new address after `cap` entries finds an empty slot and is exactly the out-of-bounds write that `InsertFits` excludes.
- SymbolCache.Get: requires `GetFits`, for the same reason. It applies only when the resolver returns a name.
- TaskQueue.PoolInit: requires 0 <= child_thread_count < INT_MAX. At `INT_MAX` the source's `child_thread_count + 1` overflows; at -1 `threads[0]` is written past a zero-length allocation, and below -1 the `calloc` count wraps to a huge `size_t`, the allocation fails and the write goes through NULL.
- `get_addr_name` (spall_auto.h:111-129) wraps `dladdr` and is an uninterpreted resolver parameter.
- `ah_free` only frees memory, so it is not modelled.
- The spall profiling plumbing is not modelled: buffer setup, the `__cyg_profile_func_*` hooks, `__rdtsc`, `get_rdtsc_multiplier`, `mul_u64_u32_shr` and `load_self`. These are trace I/O, syscalls, floating point and raw ELF parsing outside the two cores.

=== FILE: pow2.dfy ===
/** Powers of two, bit lengths and the `next_pow2` helper of spall_auto.h. */
module PowersOfTwo {

  /** 2 to the power k. */
  function Pow2(k: nat): (r: nat)
    ensures r >= 1
  {
    if k == 0 then 1 else 2 * Pow2(k - 1)
  }

  ghost predicate IsPow2(n: int) {
    exists k: nat :: n == Pow2(k)
  }

  lemma {:induction false} Pow2Monotonic(j: nat, k: nat)
    requires j <= k
    ensures Pow2(j) <= Pow2(k)
    ensures j < k ==> 2 * Pow2(j) <= Pow2(k)
    decreases k
  {
    if j < k {
      Pow2Monotonic(j, k - 1);
    }
  }

  /** Comparing powers of two is comparing exponents. */
  lemma Pow2Order(j: nat, k: nat)
    ensures Pow2(j) < Pow2(k) <==> j < k
  {
    if j < k {
      Pow2Monotonic(j, k);
    } else {
      Pow2Monotonic(k, j);
    }
  }

  /** The number of significant bits of n (0 for 0). */
  function BitLength(n: nat): nat {
    if n == 0 then 0 else 1 + BitLength(n / 2)
  }

  /** The leading one of a positive n sits at position BitLength(n) - 1. */
  lemma {:induction false} BitLengthBounds(n: nat)
    requires n >= 1
    ensures BitLength(n) >= 1
    ensures Pow2(BitLength(n) - 1) <= n < Pow2(BitLength(n))
  {
    if n >= 2 {
      BitLengthBounds(n / 2);
    }
  }

  /** `__builtin_clzl` on a 64-bit `unsigned long`: the number of zero bits
      above the leading one. The builtin is undefined for 0. */
  function CountLeadingZeros64(v: int): (c: nat)
    requires 1 <= v < Pow2(64)
    ensures c < 64
    ensures Pow2(63 - c) <= v < Pow2(64 - c)
  {
    BitLengthBounds(v);
    Pow2Order(BitLength(v) - 1, 64);
    64 - BitLength(v)
  }

  /** `next_pow2(x)` computes `1 << (64 - clzl(x - 1))` with `1` a 32-bit
      `int`: the shift is defined only while it is at most 30, and clzl is
      undefined at 0, hence the range of x. The result is the least power of
      two that is at least x. */
  function NextPow2(x: int): (r: nat)
    requires 2 <= x <= Pow2(30)
    ensures IsPow2(r)
    ensures x <= r < 2 * x
    ensures r <= Pow2(30)
  {
    Pow2Monotonic(30, 64);
    var shift := 64 - CountLeadingZeros64(x - 1);
    Pow2Order(shift - 1, 30);
    Pow2Monotonic(shift, 30);
    Pow2(shift)
  }

  /** No power of two at least x lies below next_pow2(x). */
  lemma {:induction false} NextPow2IsLeast(x: int, k: nat)
    requires 2 <= x <= Pow2(30)
    requires Pow2(k) >= x
    ensures NextPow2(x) <= Pow2(k)
  {
    var b := BitLength(x - 1);
    BitLengthBounds(x - 1);
    assert NextPow2(x) == Pow2(b);
    if k < b {
      Pow2Monotonic(k, b - 1);
    } else {
      Pow2Monotonic(b, k);
    }
  }
}

=== FILE: symbol_cache.dfy ===
/** The per-thread address-to-name cache of spall_auto.h (`AddrHash`): an
    open-addressing hash table with linear probing and no deletion. Entries
    are appended densely to `entries`; the power-of-two `hashes` array holds,
    per slot, either the index of an entry or -1.

    This module gives the table's data model, its hash and probe sequence, the
    probe loop as a recursive definition (`ProbeFrom`), and `ah_init`,
    `ah_insert` and `ah_get` as functions over that definition. */
module SymbolCache {
  import opened Wrappers
  import opened PowersOfTwo

  /** The marker of a slot that refers to no entry. */
  const EmptySlot: int := -1

  /** The 32-bit Fibonacci hashing multiplier, floor(2^32 / golden ratio). */
  const FibMultiplier: int := 2654435769

  const TwoTo31: int := 0x8000_0000
  const TwoTo32: int := 0x1_0000_0000
  const TwoTo64: int := 0x1_0000_0000_0000_0000

  /** A code address: a `void *` on a 64-bit target. */
  type Addr = a: int | 0 <= a < 0x1_0000_0000_0000_0000

  /** A symbol name: a pointer into the resolver's string storage and its
      length. The cache never looks inside it. */
  datatype Name = Name(str: string, len: int)

  datatype SymEntry = SymEntry(addr: Addr, name: Name)

  /** The dense entry array: `arr` holds the `len` used entries, `cap` is
      the number of entries allocated. */
  datatype SymArr = SymArr(arr: seq<SymEntry>, cap: nat)

  /** The slot array: each slot is -1 or an index into the entry array. */
  datatype HashArr = HashArr(arr: seq<int>)

  datatype AddrHash = AddrHash(entries: SymArr, hashes: HashArr)

  /* ---------------------------------------------------------------------- */
  /* Hashing and the probe sequence                                          */
  /* ---------------------------------------------------------------------- */

  /** `ah_hash`: the low 32 bits of the address times the Fibonacci
      multiplier, reinterpreted as a signed 32-bit `int`. */
  function Hash(addr: Addr): (h: int)
    ensures -TwoTo31 <= h < TwoTo31
    ensures (h - (addr % TwoTo32) * FibMultiplier) % TwoTo32 == 0
  {
    var product := (addr % TwoTo32) * FibMultiplier;
    var low := product % TwoTo32;
    var h := if low < TwoTo31 then low else low - TwoTo32;
    WrapIsCongruent(product, h);
    h
  }

  /** Reducing modulo 2^32 and reinterpreting as signed changes a value by a
      multiple of 2^32. */
  lemma WrapIsCongruent(product: int, h: int)
    requires h == product % TwoTo32 || h == product % TwoTo32 - TwoTo32
    ensures (h - product) % TwoTo32 == 0
  {
    var q := product / TwoTo32;
    assert product == q * TwoTo32 + product % TwoTo32;
    var m := if h == product % TwoTo32 then -q else -q - 1;
    assert h - product == m * TwoTo32;
  }

  /** The first slot probed for `addr`: the hash, sign-extended to 64 bits,
      keeps its low bits below the table size. The source masks with
      `len - 1`, which for a power-of-two `len` is the remainder by `len`. */
  function HomeSlot(addr: Addr, len: nat): (hv: nat)
    requires len > 0
    ensures hv < len
  {
    var h := Hash(addr);
    var widened := if h < 0 then h + TwoTo64 else h;
    widened % len
  }

  /** The slot visited at step i of a probe that starts at hv: one step
      further along, wrapping around the end of the table at most once. */
  function Slot(hv: nat, i: nat, len: nat): (s: nat)
    requires hv < len && i < len
    ensures s == if hv + i < len then hv + i else hv + i - len
  {
    (hv + i) % len
  }

  /** The step at which a probe starting at hv reaches slot s. */
  function StepTo(hv: nat, s: nat, len: nat): (i: nat)
    requires hv < len && s < len
    ensures i < len && Slot(hv, i, len) == s
  {
    if hv <= s then s - hv else s + len - hv
  }

  /** The slots a probe starting at hv visits over steps 0 .. len-1. */
  function Visited(hv: nat, len: nat): set<nat>
    requires hv < len
  {
    set i | 0 <= i < len :: Slot(hv, i, len)
  }

  /** Over steps 0 .. len-1 a probe visits every slot of the table exactly
      once, and never an index outside it. */
  lemma ProbeVisitsEverySlotOnce(hv: nat, len: nat)
    requires hv < len
    ensures forall s :: s in Visited(hv, len) <==> 0 <= s < len
    ensures forall i, j | 0 <= i < len && 0 <= j < len && Slot(hv, i, len) == Slot(hv, j, len) :: i == j
  {
    forall s | 0 <= s < len
      ensures s in Visited(hv, len)
    {
      var i := StepTo(hv, s, len);
      assert Slot(hv, i, len) in Visited(hv, len);
    }
  }

  /* ---------------------------------------------------------------------- */
  /* Well-formed tables and the probe                                       */
  /* ---------------------------------------------------------------------- */

  /** What every read of the probe loops relies on: a nonempty slot array
      whose slots are -1 or indices of used entries. */
  predicate WellFormed(t: AddrHash) {
    && |t.hashes.arr| > 0
    && forall s | 0 <= s < |t.hashes.arr| ::
         t.hashes.arr[s] == EmptySlot || 0 <= t.hashes.arr[s] < |t.entries.arr|
  }

  /** Slot s refers to an entry for some address other than addr, so a probe
      for addr moves past it. */
  predicate Passes(t: AddrHash, addr: Addr, s: nat)
    requires WellFormed(t) && s < |t.hashes.arr|
  {
    t.hashes.arr[s] != EmptySlot && t.entries.arr[t.hashes.arr[s]].addr != addr
  }

  /** How a probe loop ends: at the slot of a matching entry, at the first
      empty slot, or after visiting every slot. `step` is the loop counter at
      the end. */
  datatype ProbeOutcome =
    | Hit(slot: nat, index: nat, step: nat)
    | Vacant(slot: nat, step: nat)
    | Exhausted

  /** The probe loop shared by `ah_insert` and `ah_get`, from step i on. */
  function ProbeFrom(t: AddrHash, addr: Addr, hv: nat, i: nat): (p: ProbeOutcome)
    requires WellFormed(t) && hv < |t.hashes.arr| && i <= |t.hashes.arr|
    ensures p.Hit? ==>
      && i <= p.step < |t.hashes.arr|
      && p.slot == Slot(hv, p.step, |t.hashes.arr|)
      && t.hashes.arr[p.slot] == p.index
      && p.index < |t.entries.arr|
      && t.entries.arr[p.index].addr == addr
    ensures p.Vacant? ==>
      && i <= p.step < |t.hashes.arr|
      && p.slot == Slot(hv, p.step, |t.hashes.arr|)
      && t.hashes.arr[p.slot] == EmptySlot
    ensures !p.Exhausted? ==>
      forall j | i <= j < p.step :: Passes(t, addr, Slot(hv, j, |t.hashes.arr|))
    ensures p.Exhausted? ==>
      forall j | i <= j < |t.hashes.arr| :: Passes(t, addr, Slot(hv, j, |t.hashes.arr|))
    decreases |t.hashes.arr| - i
  {
    var len := |t.hashes.arr|;
    if i == len then Exhausted
    else
      var s := Slot(hv, i, len);
      var e := t.hashes.arr[s];
      if e == EmptySlot then Vacant(s, i)
      else if t.entries.arr[e].addr == addr then Hit(s, e, i)
      else ProbeFrom(t, addr, hv, i + 1)
  }

  /** The whole probe for addr, from its home slot. */
  function Probe(t: AddrHash, addr: Addr): ProbeOutcome
    requires WellFormed(t)
  {
    ProbeFrom(t, addr, HomeSlot(addr, |t.hashes.arr|), 0)
  }

  /** A probe ends without a match or an empty slot only when every slot of
      the table refers to an entry for another address. */
  lemma ExhaustedMeansEverySlotPasses(t: AddrHash, addr: Addr)
    requires WellFormed(t)
    ensures Probe(t, addr).Exhausted? <==>
      forall s | 0 <= s < |t.hashes.arr| :: Passes(t, addr, s)
  {
    var len := |t.hashes.arr|;
    var hv := HomeSlot(addr, len);
    if Probe(t, addr).Exhausted? {
      forall s | 0 <= s < len
        ensures Passes(t, addr, s)
      {
        assert Passes(t, addr, Slot(hv, StepTo(hv, s, len), len));
      }
    }
    if !Probe(t, addr).Exhausted? {
      var s := Probe(t, addr).slot;
      assert s < len && !Passes(t, addr, s);
    }
  }

  /** The first k probed slots for addr all refer to other addresses. */
  predicate ProbePassesFirst(t: AddrHash, addr: Addr, k: nat)
    requires WellFormed(t)
  {
    var len := |t.hashes.arr|;
    var hv := HomeSlot(addr, len);
    k < len && forall j | 0 <= j < k :: Passes(t, addr, Slot(hv, j, len))
  }

  /* ---------------------------------------------------------------------- */
  /* The abstract contents and the table invariant                           */
  /* ---------------------------------------------------------------------- */

  /** The name recorded for addr in the entry array: the earliest entry for
      it, if there is one. */
  function Find(entries: seq<SymEntry>, addr: Addr): (r: Option<Name>)
    ensures r.Some? <==> exists e | 0 <= e < |entries| :: entries[e].addr == addr
    ensures r.Some? ==> exists e | 0 <= e < |entries| :: entries[e] == SymEntry(addr, r.value)
  {
    if entries == [] then None
    else
      var init := entries[..|entries| - 1];
      var last := entries[|entries| - 1];
      match Find(init, addr)
      case Some(n) => Some(n)
      case None => if last.addr == addr then Some(last.name) else None
  }

  /** Some slot of the table is empty. */
  predicate HasVacancy(t: AddrHash) {
    exists s | 0 <= s < |t.hashes.arr| :: t.hashes.arr[s] == EmptySlot
  }

  /** Entry e is the one the probe for its own address stops at. */
  ghost predicate Reachable(t: AddrHash, e: nat)
    requires WellFormed(t) && e < |t.entries.arr|
  {
    var p := Probe(t, t.entries.arr[e].addr);
    p.Hit? && p.index == e
  }

  /** The invariant every table built by `ah_init`, `ah_insert` and `ah_get`
      keeps: sizes as `ah_init` chose them, each entry referred to by at most
      one slot, and each entry found by probing for its address. */
  ghost predicate Valid(t: AddrHash) {
    && WellFormed(t)
    && IsPow2(|t.hashes.arr|)
    && t.entries.cap <= |t.hashes.arr| <= Pow2(30)
    && |t.entries.arr| <= t.entries.cap
    && (forall s1, s2 | 0 <= s1 < |t.hashes.arr| && 0 <= s2 < |t.hashes.arr| && s1 != s2 ::
          t.hashes.arr[s1] == EmptySlot || t.hashes.arr[s1] != t.hashes.arr[s2])
    && (forall e | 0 <= e < |t.entries.arr| :: Reachable(t, e))
  }

  /* ---------------------------------------------------------------------- */
  /* ah_init, ah_insert, ah_get                                              */
  /* ---------------------------------------------------------------------- */

  /** `ah_init(size)`: no entries yet, room for `size`, and a power-of-two
      slot array, every slot empty. */
  function Init(size: int): (t: AddrHash)
    requires 2 <= size <= Pow2(30)
    ensures t.entries.arr == [] && t.entries.cap == size
    ensures |t.hashes.arr| == NextPow2(size)
    ensures IsPow2(|t.hashes.arr|) && size <= |t.hashes.arr| < 2 * size
    ensures forall s | 0 <= s < |t.hashes.arr| :: t.hashes.arr[s] == EmptySlot
    ensures Valid(t)
  {
    AddrHash(SymArr([], size), HashArr(seq(NextPow2(size), _ => EmptySlot)))
  }

  /** Appends entry to the entry array and points slot s at it. */
  function Place(t: AddrHash, s: nat, entry: SymEntry): (t': AddrHash)
    requires s < |t.hashes.arr|
    ensures WellFormed(t) ==> WellFormed(t')
  {
    AddrHash(SymArr(t.entries.arr + [entry], t.entries.cap),
             HashArr(t.hashes.arr[s := |t.entries.arr|]))
  }

  /** The source writes `entries.arr[entries.len]` without comparing `len`
      with `cap`; the write stays in bounds only if, whenever the probe ends
      at an empty slot, an allocated entry is still unused. */
  predicate InsertFits(t: AddrHash, addr: Addr)
    requires WellFormed(t)
  {
    Probe(t, addr).Vacant? ==> |t.entries.arr| < t.entries.cap
  }

  datatype Inserted = Inserted(ok: bool, table: AddrHash)

  /** `ah_insert(ah, addr, name)`. */
  function Insert(t: AddrHash, addr: Addr, name: Name): (r: Inserted)
    requires WellFormed(t) && InsertFits(t, addr)
    ensures WellFormed(r.table)
    // an address already present: success, nothing changes
    ensures Probe(t, addr).Hit? ==> r == Inserted(true, t)
    // failure exactly when every slot refers to another address; nothing changes
    ensures !r.ok <==> forall s | 0 <= s < |t.hashes.arr| :: Passes(t, addr, s)
    ensures !r.ok ==> r.table == t
    // the table changes exactly when the probe reaches an empty slot
    ensures r.table != t <==> Probe(t, addr).Vacant?
    // a new address: appended at index len, the first empty probed slot
    // points at it, every other slot is unchanged
    ensures Probe(t, addr).Vacant? ==>
      && r.ok
      && r.table.entries == SymArr(t.entries.arr + [SymEntry(addr, name)], t.entries.cap)
      && |r.table.hashes.arr| == |t.hashes.arr|
      && exists k | ProbePassesFirst(t, addr, k) ::
           var s := Slot(HomeSlot(addr, |t.hashes.arr|), k, |t.hashes.arr|);
           && t.hashes.arr[s] == EmptySlot
           && r.table.hashes.arr[s] == |t.entries.arr|
           && forall s' | 0 <= s' < |t.hashes.arr| && s' != s :: r.table.hashes.arr[s'] == t.hashes.arr[s']
  {
    ExhaustedMeansEverySlotPasses(t, addr);
    match Probe(t, addr)
    case Hit(_, _, _) => Inserted(true, t)
    case Exhausted => Inserted(false, t)
    case Vacant(s, k) =>
      assert ProbePassesFirst(t, addr, k);
      Inserted(true, Place(t, s, SymEntry(addr, name)))
  }

  /** The source writes the resolved entry without comparing `len` with
      `cap`; as for `InsertFits`, but only when the resolver succeeds. */
  predicate GetFits(t: AddrHash, addr: Addr, resolve: Addr -> Option<Name>)
    requires WellFormed(t)
  {
    Probe(t, addr).Vacant? && resolve(addr).Some? ==> |t.entries.arr| < t.entries.cap
  }

  datatype Lookup = Lookup(name: Option<Name>, table: AddrHash)

  /** `ah_get(ah, addr, &name)`: lookup-or-insert. On a miss at an empty
      slot it asks `resolve` (the `get_addr_name`/`dladdr` wrapper). */
  function Get(t: AddrHash, addr: Addr, resolve: Addr -> Option<Name>): (r: Lookup)
    requires WellFormed(t) && GetFits(t, addr, resolve)
    ensures WellFormed(r.table)
    // a hit returns a stored name for addr and changes nothing
    ensures Probe(t, addr).Hit? ==>
      && r.table == t
      && r.name.Some?
      && exists e | 0 <= e < |t.entries.arr| :: t.entries.arr[e] == SymEntry(addr, r.name.value)
    // no name: nothing changes
    ensures r.name.None? ==> r.table == t
    // a change is a miss whose resolved name is inserted as ah_insert does
    ensures r.table != t ==>
      && Probe(t, addr).Vacant?
      && r.name == resolve(addr)
      && r.table == Insert(t, addr, r.name.value).table
    // a name that was not stored came from the resolver
    ensures !Probe(t, addr).Hit? ==> r.name.Some? ==> r.name == resolve(addr)
    // every slot refers to another address: no name, no change
    ensures Probe(t, addr).Exhausted? ==> r == Lookup(None, t)
    // a miss at an empty slot: nothing when the resolver fails, otherwise
    // the resolved name, inserted as ah_insert does
    ensures Probe(t, addr).Vacant? && resolve(addr).None? ==> r == Lookup(None, t)
    ensures Probe(t, addr).Vacant? && resolve(addr).Some? ==>
      r == Lookup(resolve(addr), Insert(t, addr, resolve(addr).value).table)
  {
    match Probe(t, addr)
    case Hit(_, e, _) => Lookup(Some(t.entries.arr[e].name), t)
    case Exhausted => Lookup(None, t)
    case Vacant(s, _) =>
      match resolve(addr)
      case None => Lookup(None, t)
      case Some(n) => Lookup(Some(n), Place(t, s, SymEntry(addr, n)))
  }
}

=== FILE: symbol_cache_loops.dfy ===
/** The probe loops of `ah_insert` and `ah_get` as written in spall_auto.h:
    a counted loop over `i`, the slot `(hv + i) & (len - 1)`, and an early
    return at the first empty or matching slot. Each is proved to compute
    the same outcome as the recursive probe of module SymbolCache. */
module SymbolCacheLoops {
  import opened Wrappers
  import opened SymbolCache

  /** `ah_insert`, loop by loop. */
  method InsertLoop(t: AddrHash, addr: Addr, name: Name) returns (ok: bool, t': AddrHash)
    requires WellFormed(t) && InsertFits(t, addr)
    ensures Inserted(ok, t') == Insert(t, addr, name)
  {
    var len := |t.hashes.arr|;
    var hv := HomeSlot(addr, len);
    var i := 0;
    while i < len
      invariant 0 <= i <= len
      invariant ProbeFrom(t, addr, hv, i) == Probe(t, addr)
    {
      var idx := Slot(hv, i, len);
      var eIdx := t.hashes.arr[idx];
      if eIdx == EmptySlot {
        var hashes := t.hashes.arr[idx := |t.entries.arr|];
        var entries := t.entries.arr + [SymEntry(addr, name)];
        return true, AddrHash(SymArr(entries, t.entries.cap), HashArr(hashes));
      }
      if t.entries.arr[eIdx].addr == addr {
        return true, t;
      }
      i := i + 1;
    }
    // every probed slot refers to another address
    return false, t;
  }

  /** `ah_get`, loop by loop; `resolve` stands for `get_addr_name`. */
  method GetLoop(t: AddrHash, addr: Addr, resolve: Addr -> Option<Name>)
    returns (name: Option<Name>, t': AddrHash)
    requires WellFormed(t) && GetFits(t, addr, resolve)
    ensures Lookup(name, t') == Get(t, addr, resolve)
  {
    var len := |t.hashes.arr|;
    var hv := HomeSlot(addr, len);
    var i := 0;
    while i < len
      invariant 0 <= i <= len
      invariant ProbeFrom(t, addr, hv, i) == Probe(t, addr)
    {
      var idx := Slot(hv, i, len);
      var eIdx := t.hashes.arr[idx];
      if eIdx == EmptySlot {
        var resolved := resolve(addr);
        if resolved.None? {
          // the resolver has no name for addr
          return None, t;
        }
        var hashes := t.hashes.arr[idx := |t.entries.arr|];
        var entries := t.entries.arr + [SymEntry(addr, resolved.value)];
        return resolved, AddrHash(SymArr(entries, t.entries.cap), HashArr(hashes));
      }
      if t.entries.arr[eIdx].addr == addr {
        return Some(t.entries.arr[eIdx].name), t;
      }
      i := i + 1;
    }
    // every probed slot refers to another address
    return None, t;
  }
}

=== FILE: symbol_cache_proofs.dfy ===
/** What the symbol cache promises its callers, stated against the abstract
    contents `Find(entries, addr)`: every valid table answers a probe with the
    name recorded for the address, `ah_insert` and `ah_get` keep the table
    valid, and the first name recorded for an address is the one returned
    from then on. */
module SymbolCacheProofs {
  import opened Wrappers
  import opened PowersOfTwo
  import opened SymbolCache

  /* ---------------------------------------------------------------------- */
  /* Consequences of the invariant                                           */
  /* ---------------------------------------------------------------------- */

  /** In a valid table every nonempty slot holds a distinct index of a used
      entry, and no two entries record the same address. */
  lemma ValidSlotsAndAddressesDistinct(t: AddrHash)
    requires Valid(t)
    ensures forall s | 0 <= s < |t.hashes.arr| && t.hashes.arr[s] != EmptySlot ::
      0 <= t.hashes.arr[s] < |t.entries.arr|
    ensures forall s1, s2 | 0 <= s1 < |t.hashes.arr| && 0 <= s2 < |t.hashes.arr| &&
      t.hashes.arr[s1] != EmptySlot && t.hashes.arr[s1] == t.hashes.arr[s2] :: s1 == s2
    ensures forall e1, e2 | 0 <= e1 < |t.entries.arr| && 0 <= e2 < |t.entries.arr| &&
      t.entries.arr[e1].addr == t.entries.arr[e2].addr :: e1 == e2
  {
    forall e1, e2 | 0 <= e1 < |t.entries.arr| && 0 <= e2 < |t.entries.arr| &&
      t.entries.arr[e1].addr == t.entries.arr[e2].addr
      ensures e1 == e2
    {
      assert Reachable(t, e1) && Reachable(t, e2);
    }
  }

  /** In a valid table the probe for addr stops at a matching entry exactly
      when the entries record addr, and that entry carries the recorded name. */
  lemma ProbeAgreesWithFind(t: AddrHash, addr: Addr)
    requires Valid(t)
    ensures Probe(t, addr).Hit? <==> Find(t.entries.arr, addr).Some?
    ensures Probe(t, addr).Hit? ==>
      Find(t.entries.arr, addr) == Some(t.entries.arr[Probe(t, addr).index].name)
    ensures Find(t.entries.arr, addr).None? ==>
      (Probe(t, addr).Vacant? <==> HasVacancy(t))
  {
    ValidSlotsAndAddressesDistinct(t);
    ExhaustedMeansEverySlotPasses(t, addr);
    var found := Find(t.entries.arr, addr);
    if found.Some? {
      var e :| 0 <= e < |t.entries.arr| && t.entries.arr[e] == SymEntry(addr, found.value);
      assert Reachable(t, e);
    }
    if Find(t.entries.arr, addr).None? && HasVacancy(t) {
      var s :| 0 <= s < |t.hashes.arr| && t.hashes.arr[s] == EmptySlot;
      assert !Passes(t, addr, s);
    }
  }

  /** Each entry index at most once and every index below n: a slot array of
      that kind has at most n slots. */
  lemma {:induction false} Pigeonhole(h: seq<int>, n: nat)
    requires forall k | 0 <= k < |h| :: 0 <= h[k] < n
    requires forall k1, k2 | 0 <= k1 < |h| && 0 <= k2 < |h| && k1 != k2 :: h[k1] != h[k2]
    ensures |h| <= n
    decreases n
  {
    if |h| > 0 {
      assert 0 <= h[0] < n;
      var m := n - 1;
      if k :| 0 <= k < |h| && h[k] == m {
        var rest := h[..k] + h[k + 1..];
        assert forall j | 0 <= j < |rest| :: rest[j] == h[if j < k then j else j + 1];
        Pigeonhole(rest, m);
      } else {
        Pigeonhole(h, m);
      }
    }
  }

  /** While fewer entries are used than there are slots, some slot is empty:
      with a valid table, `ah_insert` can only fail once every slot is used. */
  lemma VacancyWhileEntriesFewerThanSlots(t: AddrHash)
    requires Valid(t)
    requires |t.entries.arr| < |t.hashes.arr|
    ensures HasVacancy(t)
  {
    if !HasVacancy(t) {
      Pigeonhole(t.hashes.arr, |t.entries.arr|);
      assert false;
    }
  }

  /* ---------------------------------------------------------------------- */
  /* Placing a new entry                                                     */
  /* ---------------------------------------------------------------------- */

  /** Filling an empty slot does not disturb a probe that ends at a match:
      that probe only passes through nonempty slots. */
  lemma {:induction false} PlaceKeepsHit(t: AddrHash, s0: nat, entry: SymEntry, addr: Addr, hv: nat, i: nat)
    requires WellFormed(t) && s0 < |t.hashes.arr| && t.hashes.arr[s0] == EmptySlot
    requires hv < |t.hashes.arr| && i <= |t.hashes.arr|
    requires ProbeFrom(t, addr, hv, i).Hit?
    ensures ProbeFrom(Place(t, s0, entry), addr, hv, i) == ProbeFrom(t, addr, hv, i)
    decreases |t.hashes.arr| - i
  {
    var t' := Place(t, s0, entry);
    var len := |t.hashes.arr|;
    var s := Slot(hv, i, len);
    var e := t.hashes.arr[s];
    assert t'.hashes.arr[s] == e;
    if e != EmptySlot && t.entries.arr[e].addr != addr {
      assert t'.entries.arr[e] == t.entries.arr[e];
      PlaceKeepsHit(t, s0, entry, addr, hv, i + 1);
    } else {
      assert t'.entries.arr[e] == t.entries.arr[e];
    }
  }

  /** A probe that ended at the empty slot s0 ends, once s0 refers to a new
      entry for the same address, at that entry. */
  lemma {:induction false} PlaceFindsNew(t: AddrHash, addr: Addr, name: Name, hv: nat, i: nat)
    requires WellFormed(t) && hv < |t.hashes.arr| && i <= |t.hashes.arr|
    requires ProbeFrom(t, addr, hv, i).Vacant?
    ensures var p := ProbeFrom(t, addr, hv, i);
      ProbeFrom(Place(t, p.slot, SymEntry(addr, name)), addr, hv, i) == Hit(p.slot, |t.entries.arr|, p.step)
    decreases |t.hashes.arr| - i
  {
    var p := ProbeFrom(t, addr, hv, i);
    var t' := Place(t, p.slot, SymEntry(addr, name));
    var len := |t.hashes.arr|;
    var s := Slot(hv, i, len);
    if t.hashes.arr[s] == EmptySlot {
      assert t'.entries.arr[|t.entries.arr|] == SymEntry(addr, name);
    } else {
      var e := t.hashes.arr[s];
      assert t'.hashes.arr[s] == e;
      assert t'.entries.arr[e] == t.entries.arr[e];
      PlaceFindsNew(t, addr, name, hv, i + 1);
    }
  }

  /** Recording a new address at the first empty slot of its probe keeps the
      table valid, provided an allocated entry is still unused. */
  lemma PlaceKeepsValid(t: AddrHash, addr: Addr, name: Name)
    requires Valid(t) && Probe(t, addr).Vacant? && |t.entries.arr| < t.entries.cap
    ensures var t' := Place(t, Probe(t, addr).slot, SymEntry(addr, name));
      && Valid(t')
      && Probe(t', addr) == Hit(Probe(t, addr).slot, |t.entries.arr|, Probe(t, addr).step)
  {
    var p := Probe(t, addr);
    var entry := SymEntry(addr, name);
    var t' := Place(t, p.slot, entry);
    var n := |t.entries.arr|;
    var len := |t.hashes.arr|;
    PlaceFindsNew(t, addr, name, HomeSlot(addr, len), 0);
    forall e | 0 <= e < |t'.entries.arr|
      ensures Reachable(t', e)
    {
      if e < n {
        var a := t.entries.arr[e].addr;
        assert t'.entries.arr[e] == t.entries.arr[e];
        assert Reachable(t, e);
        PlaceKeepsHit(t, p.slot, entry, a, HomeSlot(a, len), 0);
      }
    }
  }

  /** The contents after appending one entry: the entries before it win. */
  lemma FindAppend(entries: seq<SymEntry>, entry: SymEntry, b: Addr)
    ensures Find(entries + [entry], b) ==
      if Find(entries, b).Some? then Find(entries, b)
      else if entry.addr == b then Some(entry.name)
      else None
  {
    assert (entries + [entry])[..|entries|] == entries;
  }

  /* ---------------------------------------------------------------------- */
  /* ah_insert and ah_get against the abstract contents                      */
  /* ---------------------------------------------------------------------- */

  /** The entries after record what the entries before record, and addr with
      `value` when there is one. */
  ghost predicate RecordsAlso(before: seq<SymEntry>, after: seq<SymEntry>, addr: Addr, value: Option<Name>) {
    forall b: Addr :: Find(after, b) == if b == addr && value.Some? then value else Find(before, b)
  }

  /** `ah_insert` keeps the table valid; it succeeds exactly when addr is
      already recorded or some slot is empty; afterwards addr is recorded
      with its first name and every other address is as before. */
  lemma InsertCorrect(t: AddrHash, addr: Addr, name: Name)
    requires Valid(t) && InsertFits(t, addr)
    ensures Valid(Insert(t, addr, name).table)
    ensures Insert(t, addr, name).ok <==> Find(t.entries.arr, addr).Some? || HasVacancy(t)
    ensures RecordsAlso(t.entries.arr, Insert(t, addr, name).table.entries.arr, addr,
      if Insert(t, addr, name).ok then Some(Find(t.entries.arr, addr).GetOr(name)) else None)
  {
    ProbeAgreesWithFind(t, addr);
    ExhaustedMeansEverySlotPasses(t, addr);
    var r := Insert(t, addr, name);
    if Probe(t, addr).Vacant? {
      PlaceKeepsValid(t, addr, name);
      forall b: Addr
        ensures Find(r.table.entries.arr, b) ==
          if b == addr then Some(name) else Find(t.entries.arr, b)
      {
        FindAppend(t.entries.arr, SymEntry(addr, name), b);
      }
    }
  }

  /** `ah_get` keeps the table valid. A recorded address yields its recorded
      name with no change and without asking the resolver. An unrecorded one
      yields nothing and changes nothing when the resolver fails or no slot
      is empty; otherwise it yields the resolved name and records it as
      `ah_insert` would. In every case the contents afterwards are the
      contents before with addr bound to the returned name, if any. */
  lemma GetCorrect(t: AddrHash, addr: Addr, resolve: Addr -> Option<Name>)
    requires Valid(t) && GetFits(t, addr, resolve)
    ensures Valid(Get(t, addr, resolve).table)
    ensures Find(t.entries.arr, addr).Some? ==>
      Get(t, addr, resolve) == Lookup(Find(t.entries.arr, addr), t)
    ensures Find(t.entries.arr, addr).None? && (!HasVacancy(t) || resolve(addr).None?) ==>
      Get(t, addr, resolve) == Lookup(None, t)
    ensures Find(t.entries.arr, addr).None? && HasVacancy(t) && resolve(addr).Some? ==>
      && InsertFits(t, addr)
      && Get(t, addr, resolve) == Lookup(resolve(addr), Insert(t, addr, resolve(addr).value).table)
    ensures RecordsAlso(t.entries.arr, Get(t, addr, resolve).table.entries.arr, addr,
      Get(t, addr, resolve).name)
  {
    ProbeAgreesWithFind(t, addr);
    var r := Get(t, addr, resolve);
    if Probe(t, addr).Vacant? && resolve(addr).Some? {
      InsertCorrect(t, addr, resolve(addr).value);
    }
  }

  /** After a successful `ah_insert` of addr, `ah_get` of addr returns the
      name of the first insertion of addr, leaves the table as it is and
      never asks the resolver. */
  lemma FirstInsertionWins(t: AddrHash, addr: Addr, name: Name, resolve: Addr -> Option<Name>)
    requires Valid(t) && InsertFits(t, addr) && Insert(t, addr, name).ok
    ensures var t1 := Insert(t, addr, name).table;
      && Valid(t1)
      && Probe(t1, addr).Hit?
      && Get(t1, addr, resolve) == Lookup(Some(Find(t.entries.arr, addr).GetOr(name)), t1)
  {
    var t1 := Insert(t, addr, name).table;
    InsertCorrect(t, addr, name);
    ProbeAgreesWithFind(t1, addr);
  }

  /** Below the entry capacity `ah_insert` always has room: a table built by
      `ah_init` has at least as many slots as entries. */
  lemma InsertSucceedsBelowCapacity(t: AddrHash, addr: Addr, name: Name)
    requires Valid(t) && |t.entries.arr| < t.entries.cap
    ensures InsertFits(t, addr)
    ensures Insert(t, addr, name).ok
  {
    VacancyWhileEntriesFewerThanSlots(t);
    InsertCorrect(t, addr, name);
  }
}

=== FILE: task_queue.dfy ===
/** The per-thread task queue of main.c and the counters kept beside it.

    A thread's queue is a singly linked list used as a LIFO stack: push
    prepends, pop takes the head. Here it is the sequence of tasks from the
    head on. The thread's back-pointer to its pool is represented by its
    position in `Pool.threads`, so the operations take the pool and a thread
    index. Each queue mutex is a `locked` flag; the model is sequential, so a
    lock is only ever taken while it is free. */
module TaskQueue {
  import opened Wrappers

  /** The work procedures the program schedules: `little_work` is the only one. */
  datatype WorkProc = LittleWork

  /** `TPoolTask` without its link: the procedure and its argument. */
  datatype Task = Task(work: WorkProc, arg: nat)

  /** A freshly allocated task node: its payload and the list its `next`
      field leads to. */
  datatype TaskNode = TaskNode(task: Task, next: seq<Task>)

  datatype Thread = Thread(idx: int, queue: seq<Task>, locked: bool, tasksDone: nat, tasksTotal: nat)

  datatype Pool = Pool(threads: seq<Thread>, threadCount: int, running: bool, tasksDone: nat, tasksTotal: nat)

  /** The result of a pop: the task taken, or None for a NULL return. */
  datatype Popped = Popped(task: Option<Task>, pool: Pool)

  /** The largest value of a C `int`. */
  const IntMax: int := 0x7fff_ffff

  function WithThread(p: Pool, i: nat, th: Thread): Pool
    requires i < |p.threads|
  {
    p.(threads := p.threads[i := th])
  }

  /* ---------------------------------------------------------------------- */
  /* Push and pop                                                            */
  /* ---------------------------------------------------------------------- */

  /** `tqueue_push`: an empty queue becomes the node itself (whatever its
      `next` leads to), a nonempty one gets the node linked in front of its
      head; both the thread's and the pool's submitted counters go up by one.
      The empty-queue branch relies on the node's `next` being NULL, as
      `calloc` leaves it. */
  function Push(p: Pool, i: nat, node: TaskNode): (p': Pool)
    requires i < |p.threads|
    requires p.threads[i].queue == [] ==> node.next == []
    ensures |p'.threads| == |p.threads|
    ensures p'.threads[i].queue == [node.task] + p.threads[i].queue
    ensures p'.threads[i].tasksTotal == p.threads[i].tasksTotal + 1
    ensures p'.tasksTotal == p.tasksTotal + 1
    // nothing else changes
    ensures p'.threads[i] == p.threads[i].(queue := p'.threads[i].queue, tasksTotal := p'.threads[i].tasksTotal)
    ensures forall j | 0 <= j < |p.threads| && j != i :: p'.threads[j] == p.threads[j]
    ensures p' == p.(threads := p'.threads, tasksTotal := p'.tasksTotal)
  {
    var th := p.threads[i];
    var queue := if th.queue == [] then [node.task] + node.next else [node.task] + th.queue;
    var th' := th.(queue := queue, tasksTotal := th.tasksTotal + 1);
    WithThread(p, i, th').(tasksTotal := p.tasksTotal + 1)
  }

  /** `tqueue_pop`: NULL from an empty queue; otherwise the head, leaving the
      tail. Counters are not touched. */
  function Pop(p: Pool, i: nat): (r: Popped)
    requires i < |p.threads|
    ensures |r.pool.threads| == |p.threads|
    ensures p.threads[i].queue == [] <==> r.task.None?
    ensures r.task.None? ==> r.pool == p
    ensures r.task.Some? ==> [r.task.value] + r.pool.threads[i].queue == p.threads[i].queue
    // nothing but the queue changes
    ensures r.pool.threads[i] == p.threads[i].(queue := r.pool.threads[i].queue)
    ensures r.pool == WithThread(p, i, r.pool.threads[i])
  {
    var th := p.threads[i];
    if th.queue == [] then Popped(None, p)
    else Popped(Some(th.queue[0]), WithThread(p, i, th.(queue := th.queue[1..])))
  }

  /** Pushing a task and popping it again yields that task and restores the
      queue: the queue is last in, first out. */
  lemma PushThenPop(p: Pool, i: nat, node: TaskNode)
    requires i < |p.threads|
    requires p.threads[i].queue == [] ==> node.next == []
    ensures Pop(Push(p, i, node), i).task == Some(node.task)
    ensures Pop(Push(p, i, node), i).pool.threads[i].queue == p.threads[i].queue
  {
    var q := [node.task] + p.threads[i].queue;
    assert q[1..] == p.threads[i].queue;
  }

  /* ---------------------------------------------------------------------- */
  /* The locking wrappers                                                    */
  /* ---------------------------------------------------------------------- */

  /** `mutex_lock` on thread i's queue lock. */
  function Lock(p: Pool, i: nat): Pool
    requires i < |p.threads| && !p.threads[i].locked
  {
    WithThread(p, i, p.threads[i].(locked := true))
  }

  /** `mutex_unlock` on thread i's queue lock. */
  function Unlock(p: Pool, i: nat): Pool
    requires i < |p.threads| && p.threads[i].locked
  {
    WithThread(p, i, p.threads[i].(locked := false))
  }

  /** `tqueue_push_safe`: the push between taking and releasing the queue
      lock, with the same effect as the push alone. */
  function PushSafe(p: Pool, i: nat, node: TaskNode): (p': Pool)
    requires i < |p.threads| && !p.threads[i].locked
    requires p.threads[i].queue == [] ==> node.next == []
    ensures p' == Push(p, i, node)
    ensures !p'.threads[i].locked
  {
    var held := Lock(p, i);
    var pushed := Push(held, i, node);
    Unlock(pushed, i)
  }

  /** `tqueue_pop_safe`: the pop between taking and releasing the queue
      lock, with the same effect as the pop alone. */
  function PopSafe(p: Pool, i: nat): (r: Popped)
    requires i < |p.threads| && !p.threads[i].locked
    ensures r == Pop(p, i)
    ensures !r.pool.threads[i].locked
  {
    var held := Lock(p, i);
    var popped := Pop(held, i);
    Popped(popped.task, Unlock(popped.pool, i))
  }

  /* ---------------------------------------------------------------------- */
  /* Set-up                                                                  */
  /* ---------------------------------------------------------------------- */

  /** A thread as `calloc` leaves it: all fields zero. */
  const ZeroThread: Thread := Thread(0, [], false, 0, 0)

  /** `thread_init`: a fresh lock, an empty queue and the index; the
      counters keep what the allocation left in them. */
  function ThreadInit(th: Thread, idx: int): (th': Thread)
    ensures th'.idx == idx && th'.queue == [] && !th'.locked
    ensures th'.tasksDone == th.tasksDone && th'.tasksTotal == th.tasksTotal
  {
    Thread(idx, [], false, th.tasksDone, th.tasksTotal)
  }

  /** Threads 0 .. n-1 as `tpool_init` leaves them. */
  function FreshThreads(n: nat): (ts: seq<Thread>)
    ensures |ts| == n
    ensures forall i | 0 <= i < n :: ts[i] == ThreadInit(ZeroThread, i)
  {
    if n == 0 then [] else FreshThreads(n - 1) + [ThreadInit(ZeroThread, n - 1)]
  }

  /** `tpool_init(child_thread_count)`: the calling thread is thread 0 and
      one more thread per child, each numbered by its position, with an
      empty queue and zero counters; the pool is running and has counted no
      tasks. `child_thread_count + 1` must be a valid `int` and positive, as
      `threads[0]` is written. Starting the child threads is not modelled. */
  function PoolInit(childCount: int): (p: Pool)
    requires 0 <= childCount < IntMax
    ensures p.threadCount == childCount + 1 == |p.threads|
    ensures forall i | 0 <= i < |p.threads| ::
      p.threads[i] == Thread(i, [], false, 0, 0)
    ensures p.running && p.tasksDone == 0 && p.tasksTotal == 0
    ensures Accounted(p) && Idle(p)
  {
    var count := childCount + 1;
    var p := Pool(FreshThreads(count), count, true, 0, 0);
    SumOfZeros(p.threads);
    p
  }

  /* ---------------------------------------------------------------------- */
  /* Accounting                                                              */
  /* ---------------------------------------------------------------------- */

  function Total(th: Thread): nat { th.tasksTotal }
  function Done(th: Thread): nat { th.tasksDone }
  function Queued(th: Thread): nat { |th.queue| }

  /** The sum of f over the threads. */
  function Sum(ts: seq<Thread>, f: Thread -> nat): nat {
    if ts == [] then 0 else Sum(ts[..|ts| - 1], f) + f(ts[|ts| - 1])
  }

  lemma {:induction false} SumUpdate(ts: seq<Thread>, f: Thread -> nat, i: nat, th: Thread)
    requires i < |ts|
    ensures Sum(ts[i := th], f) == Sum(ts, f) - f(ts[i]) + f(th)
    decreases |ts|
  {
    var n := |ts| - 1;
    if i == n {
      assert ts[i := th][..n] == ts[..n];
    } else {
      assert ts[i := th][..n] == ts[..n][i := th];
      SumUpdate(ts[..n], f, i, th);
    }
  }

  lemma {:induction false} SumOfZeros(ts: seq<Thread>)
    requires forall i | 0 <= i < |ts| :: ts[i].tasksDone == 0 && ts[i].tasksTotal == 0
    ensures Sum(ts, Done) == 0 && Sum(ts, Total) == 0
  {
    if ts != [] {
      SumOfZeros(ts[..|ts| - 1]);
    }
  }

  /** A thread whose queue holds exactly its submitted but unfinished tasks. */
  ghost predicate Balanced(th: Thread) {
    th.tasksDone <= th.tasksTotal && |th.queue| == th.tasksTotal - th.tasksDone
  }

  /** The bookkeeping between two tasks: one thread per counted slot, each
      numbered by position and balanced, and the pool's counters the sums of
      the threads' counters. */
  ghost predicate Accounted(p: Pool) {
    && |p.threads| == p.threadCount
    && (forall i | 0 <= i < |p.threads| :: p.threads[i].idx == i && Balanced(p.threads[i]))
    && p.tasksTotal == Sum(p.threads, Total)
    && p.tasksDone == Sum(p.threads, Done)
  }

  /** No queue lock is held. */
  predicate Idle(p: Pool) {
    forall i | 0 <= i < |p.threads| :: !p.threads[i].locked
  }

  /** When every thread is balanced, the tasks submitted and not yet done
      across the pool are exactly the tasks waiting in the queues. */
  lemma {:induction false} PendingIsQueued(ts: seq<Thread>)
    requires forall i | 0 <= i < |ts| :: Balanced(ts[i])
    ensures Sum(ts, Done) <= Sum(ts, Total)
    ensures Sum(ts, Total) - Sum(ts, Done) == Sum(ts, Queued)
  {
    if ts != [] {
      PendingIsQueued(ts[..|ts| - 1]);
    }
  }

  /** Pool accounting: the pool has done no more than it was given, and its
      outstanding tasks are the sum of every thread's outstanding tasks,
      which is the number of tasks in the queues. */
  lemma PoolPendingIsQueued(p: Pool)
    requires Accounted(p)
    ensures p.tasksDone <= p.tasksTotal
    ensures p.tasksTotal - p.tasksDone == Sum(p.threads, Queued)
  {
    PendingIsQueued(p.threads);
  }

  /** A push keeps the bookkeeping. */
  lemma PushKeepsAccounted(p: Pool, i: nat, node: TaskNode)
    requires Accounted(p) && i < |p.threads|
    requires p.threads[i].queue == [] ==> node.next == []
    ensures Accounted(Push(p, i, node))
  {
    var p' := Push(p, i, node);
    assert p'.threads == p.threads[i := p'.threads[i]];
    SumUpdate(p.threads, Total, i, p'.threads[i]);
    SumUpdate(p.threads, Done, i, p'.threads[i]);
  }

  /** Taking or releasing a queue lock keeps the bookkeeping. */
  lemma LockingKeepsAccounted(p: Pool, i: nat, locked: bool)
    requires Accounted(p) && i < |p.threads|
    ensures Accounted(WithThread(p, i, p.threads[i].(locked := locked)))
  {
    var th := p.threads[i].(locked := locked);
    SumUpdate(p.threads, Total, i, th);
    SumUpdate(p.threads, Done, i, th);
  }

  /** The check the worker loop relies on: while a thread has done fewer
      tasks than it was given, popping its own queue yields a task. */
  lemma PopSucceedsWhileBehind(p: Pool, i: nat)
    requires Accounted(p) && Idle(p) && i < |p.threads|
    requires p.threads[i].tasksDone < p.threads[i].tasksTotal
    ensures PopSafe(p, i).task.Some?
    ensures PopSafe(p, i).task == Some(p.threads[i].queue[0])
  {
    assert Balanced(p.threads[i]);
  }
}

=== FILE: thread_pool.dfy ===
/** The work loop of main.c, run by one thread at a time: `little_work`, one
    pass of the drain loop shared by `tpool_worker` and `tpool_wait`, the
    drain loop itself, `tpool_wait` for a pool with no child threads, and the
    start of `main` for such a pool. */
module ThreadPool {
  import opened Wrappers
  import opened TaskQueue

  /** `little_work` submits a child only while fewer tasks than this have
      been submitted to the pool. */
  const SpawnLimit: nat := 10000

  function Max(a: nat, b: nat): nat {
    if a < b then b else a
  }

  /** How many more tasks `little_work` may still submit. */
  function Budget(total: nat): nat {
    if total < SpawnLimit then SpawnLimit - total else 0
  }

  /** 1 when `little_work` submits a child at this total, else 0. */
  function Spawns(total: nat): nat {
    if total < SpawnLimit then 1 else 0
  }

  /** What `little_work` and the drain loop need of the pool: the thread
      array has `thread_count` entries, at least one, and no queue lock is
      held. */
  predicate Runnable(p: Pool) {
    0 < |p.threads| == p.threadCount && Idle(p)
  }

  /** `little_work(count)`: while the pool has been given fewer than 10000
      tasks, push one new task with the same argument onto the queue of
      thread `rand() % thread_count`; `rand` is the value `rand()` returned. */
  function LittleWorkStep(p: Pool, count: nat, rand: nat): (p': Pool)
    requires Runnable(p)
    ensures Runnable(p')
    ensures p'.tasksTotal == p.tasksTotal + Spawns(p.tasksTotal)
    ensures p'.tasksDone == p.tasksDone && p'.threadCount == p.threadCount
    ensures |p'.threads| == |p.threads|
    ensures forall j | 0 <= j < |p.threads| ::
      && p'.threads[j].tasksDone == p.threads[j].tasksDone
      && p.threads[j].tasksTotal <= p'.threads[j].tasksTotal <= p.threads[j].tasksTotal + Spawns(p.tasksTotal)
    ensures p.tasksTotal < SpawnLimit ==>
      p'.threads[rand % p.threadCount].queue == [Task(LittleWork, count)] + p.threads[rand % p.threadCount].queue
    // the child is a push onto the sibling's queue, and nothing else changes
    ensures p.tasksTotal < SpawnLimit ==>
      p' == Push(p, rand % p.threadCount, TaskNode(Task(LittleWork, count), []))
    ensures p.tasksTotal >= SpawnLimit ==> p' == p
  {
    if p.tasksTotal < SpawnLimit then
      var sibling := rand % p.threadCount;
      var node := TaskNode(Task(LittleWork, count), []);
      PushSafe(p, sibling, node)
    else p
  }

  /** `little_work` keeps the bookkeeping: its child is counted where it is
      queued. */
  lemma LittleWorkKeepsAccounted(p: Pool, count: nat, rand: nat)
    requires Runnable(p) && Accounted(p)
    ensures Accounted(LittleWorkStep(p, count, rand))
  {
    if p.tasksTotal < SpawnLimit {
      PushKeepsAccounted(p, rand % p.threadCount, TaskNode(Task(LittleWork, count), []));
    }
  }

  /** Calls the task's work procedure on its argument. */
  function Execute(p: Pool, task: Task, rand: nat): Pool
    requires Runnable(p)
  {
    match task.work
    case LittleWork => LittleWorkStep(p, task.arg, rand)
  }

  /** After a task has run: the pool's and the running thread's completed
      counters go up by one. */
  function Complete(p: Pool, i: nat): Pool
    requires i < |p.threads|
  {
    var th := p.threads[i];
    WithThread(p, i, th.(tasksDone := th.tasksDone + 1)).(tasksDone := p.tasksDone + 1)
  }

  /** One pass of the drain loop of thread i: pop the own queue, run the task,
      count it done. None when the pop finds the queue empty: the "WTF" exit
      of `tpool_worker`, the `break` of `tpool_wait`. */
  function RunOne(p: Pool, i: nat, rand: nat): (r: Option<Pool>)
    requires Accounted(p) && Runnable(p) && i < |p.threads|
    ensures r.None? <==> p.threads[i].queue == []
    ensures r.None? <==> p.threads[i].tasksDone == p.threads[i].tasksTotal
    ensures r.Some? ==>
      && Accounted(r.value) && Runnable(r.value)
      && |r.value.threads| == |p.threads|
      && r.value.tasksDone == p.tasksDone + 1
      && r.value.tasksTotal == p.tasksTotal + Spawns(p.tasksTotal)
      && r.value.threads[i].tasksDone == p.threads[i].tasksDone + 1
      && r.value.threads[i].tasksTotal <= p.threads[i].tasksTotal + Spawns(p.tasksTotal)
    // the pass runs the head of the queue on the popped pool and counts it
    ensures r.Some? ==>
      r.value == Complete(Execute(Pop(p, i).pool, p.threads[i].queue[0], rand), i)
  {
    assert Balanced(p.threads[i]);
    var popped := PopSafe(p, i);
    match popped.task
    case None => None
    case Some(task) =>
      var ran := Execute(popped.pool, task, rand);
      RunOneKeepsAccounted(p, i, task, rand);
      Some(Complete(ran, i))
  }

  /** Counting a task done on thread i and running `little_work` do not
      interfere: the one touches only done counters, the other only a queue
      and submitted counters. */
  lemma CompleteCommutesWithLittleWork(q: Pool, i: nat, count: nat, rand: nat)
    requires Runnable(q) && i < |q.threads|
    ensures Runnable(Complete(q, i))
    ensures Complete(LittleWorkStep(q, count, rand), i) == LittleWorkStep(Complete(q, i), count, rand)
  {
    var c := Complete(q, i);
    assert Idle(c) by {
      forall j | 0 <= j < |c.threads|
        ensures !c.threads[j].locked
      {
        assert c.threads[j].locked == q.threads[j].locked;
      }
    }
    if q.tasksTotal < SpawnLimit {
      var j := rand % q.threadCount;
      var node := TaskNode(Task(LittleWork, count), []);
      var left := Complete(Push(q, j, node), i);
      var right := Push(c, j, node);
      assert left.threads == right.threads by {
        forall k | 0 <= k < |left.threads|
          ensures left.threads[k] == right.threads[k]
        {
        }
      }
    }
  }

  /** Popping, running and completing one task leaves the bookkeeping as it
      was found: counting the popped task done at once balances its thread
      again, and `little_work` then keeps the bookkeeping. */
  lemma RunOneKeepsAccounted(p: Pool, i: nat, task: Task, rand: nat)
    requires Accounted(p) && Runnable(p) && i < |p.threads|
    requires PopSafe(p, i).task == Some(task)
    ensures var ran := Execute(PopSafe(p, i).pool, task, rand);
      && i < |ran.threads|
      && Accounted(Complete(ran, i))
  {
    var popped := PopSafe(p, i).pool;
    var shifted := Complete(popped, i);
    var th := shifted.threads[i];
    assert shifted.threads == p.threads[i := th];
    assert Balanced(p.threads[i]);
    SumUpdate(p.threads, Total, i, th);
    SumUpdate(p.threads, Done, i, th);
    assert Accounted(shifted);
    CompleteCommutesWithLittleWork(popped, i, task.arg, rand);
    LittleWorkKeepsAccounted(shifted, task.arg, rand);
  }

  /** `tail` is what is left of `s` after some tasks were put in front. */
  predicate EndsWith(s: seq<Task>, tail: seq<Task>) {
    |tail| <= |s| && s[|s| - |tail|..] == tail
  }

  /** From p to q only thread i has run tasks: the pool's done counter rose
      by exactly what thread i's did, and every other thread kept its done
      counter and at most gained tasks in front of its queue. */
  predicate OthersOnlyGain(p: Pool, q: Pool, i: nat) {
    && i < |p.threads| == |q.threads|
    && q.tasksDone - p.tasksDone == q.threads[i].tasksDone - p.threads[i].tasksDone
    && forall j | 0 <= j < |p.threads| && j != i ::
      && q.threads[j].tasksDone == p.threads[j].tasksDone
      && EndsWith(q.threads[j].queue, p.threads[j].queue)
  }

  lemma {:induction false} EndsWithTrans(a: seq<Task>, b: seq<Task>, c: seq<Task>)
    requires EndsWith(b, a) && EndsWith(c, b)
    ensures EndsWith(c, a)
  {
    assert c[|c| - |a|..] == c[|c| - |b|..][|b| - |a|..];
  }

  /** A pass of thread i's drain loop touches the other threads only through
      the push of `little_work`, which puts a task in front of one queue. */
  lemma RunOneFramesOthers(p: Pool, i: nat, rand: nat)
    requires Accounted(p) && Runnable(p) && i < |p.threads|
    requires RunOne(p, i, rand).Some?
    ensures OthersOnlyGain(p, RunOne(p, i, rand).value, i)
  {
    var q := RunOne(p, i, rand).value;
    var popped := Pop(p, i).pool;
    var ran := Execute(popped, p.threads[i].queue[0], rand);
    forall j | 0 <= j < |p.threads| && j != i
      ensures q.threads[j].tasksDone == p.threads[j].tasksDone
      ensures EndsWith(q.threads[j].queue, p.threads[j].queue)
    {
      assert popped.threads[j] == p.threads[j];
      assert q.threads[j] == ran.threads[j];
      var a := p.threads[j].queue;
      var b := ran.threads[j].queue;
      if popped.tasksTotal < SpawnLimit && j == rand % popped.threadCount {
        assert b == [Task(LittleWork, p.threads[i].queue[0].arg)] + a;
        assert b[|b| - |a|..] == a;
      } else {
        assert b == a;
      }
    }
  }

  /** Frames of consecutive passes compose. */
  lemma OthersOnlyGainTrans(p: Pool, q: Pool, r: Pool, i: nat)
    requires OthersOnlyGain(p, q, i) && OthersOnlyGain(q, r, i)
    ensures OthersOnlyGain(p, r, i)
  {
    forall j | 0 <= j < |p.threads| && j != i
      ensures EndsWith(r.threads[j].queue, p.threads[j].queue)
    {
      EndsWithTrans(p.threads[j].queue, q.threads[j].queue, r.threads[j].queue);
    }
  }

  /** The inner loop of `tpool_worker` and of `tpool_wait` for thread i: run
      the own queue's tasks while the thread has done fewer tasks than it was
      given. `rand` is the sequence of values `rand()` returns; `calls` counts
      those used so far. The pop never comes back empty, so the "WTF" exit
      and the `break` are never taken, and the loop ends with the thread
      caught up. Submissions stay within the 10000-task limit. */
  method DrainOwnQueue(p: Pool, i: nat, rand: nat -> nat, calls: nat) returns (p': Pool, calls': nat)
    requires Accounted(p) && Runnable(p) && i < |p.threads|
    ensures Accounted(p') && Runnable(p') && |p'.threads| == |p.threads|
    ensures p'.threads[i].tasksDone == p'.threads[i].tasksTotal
    ensures p'.threads[i].queue == []
    ensures p.tasksTotal <= p'.tasksTotal <= Max(p.tasksTotal, SpawnLimit)
    ensures p.tasksDone <= p'.tasksDone
    ensures |p.threads| == 1 && p.tasksDone < p.tasksTotal ==>
      p'.tasksTotal == Max(p.tasksTotal, SpawnLimit)
    // only thread i runs tasks; the others at most gain tasks in front
    ensures OthersOnlyGain(p, p', i)
  {
    p' := p;
    calls' := calls;
    while p'.threads[i].tasksDone < p'.threads[i].tasksTotal
      invariant Accounted(p') && Runnable(p') && |p'.threads| == |p.threads|
      invariant p.tasksTotal <= p'.tasksTotal <= Max(p.tasksTotal, SpawnLimit)
      invariant p.tasksDone <= p'.tasksDone
      invariant |p.threads| == 1 && p.tasksDone < p.tasksTotal ==>
        p'.tasksTotal >= SpawnLimit || p'.tasksDone < p'.tasksTotal
      invariant OthersOnlyGain(p, p', i)
      decreases 2 * Budget(p'.tasksTotal) + |p'.threads[i].queue|
    {
      assert Balanced(p'.threads[i]);
      var next := RunOne(p', i, rand(calls'));
      calls' := calls' + 1;
      if next.None? {
        break;
      }
      if |p.threads| == 1 {
        SingleThreadPending(p');
      }
      RunOneFramesOthers(p', i, rand(calls' - 1));
      OthersOnlyGainTrans(p, p', next.value, i);
      p' := next.value;
    }
    assert Balanced(p'.threads[i]);
    if |p.threads| == 1 {
      SingleThreadPending(p');
    }
  }

  /** With a single thread the pool's counters are that thread's counters. */
  lemma SingleThreadPending(p: Pool)
    requires Accounted(p) && |p.threads| == 1
    ensures p.tasksTotal == p.threads[0].tasksTotal
    ensures p.tasksDone == p.threads[0].tasksDone
  {
    assert p.threads[..0] == [];
    assert Sum(p.threads, Total) == Sum([], Total) + Total(p.threads[0]);
    assert Sum(p.threads, Done) == Sum([], Done) + Done(p.threads[0]);
  }

  /** `tpool_wait` on a pool without child threads, where the calling thread
      is the only one: drain the own queue until the pool has done every task
      it was given (`sched_yield` does nothing here). The loop ends; if any
      task was pending, the pool ends up having been given exactly
      max(initial total, 10000) tasks, all done. */
  method Wait(p: Pool, rand: nat -> nat) returns (p': Pool)
    requires Accounted(p) && Runnable(p) && |p.threads| == 1
    ensures Accounted(p') && Runnable(p') && |p'.threads| == 1
    ensures p'.tasksDone == p'.tasksTotal
    ensures p'.threads[0].queue == []
    ensures p'.tasksTotal ==
      if p.tasksDone < p.tasksTotal then Max(p.tasksTotal, SpawnLimit) else p.tasksTotal
  {
    p' := p;
    var calls := 0;
    SingleThreadPending(p);
    assert Balanced(p.threads[0]);
    while p'.tasksDone < p'.tasksTotal
      invariant Accounted(p') && Runnable(p') && |p'.threads| == 1
      invariant p'.tasksDone < p'.tasksTotal ==> p' == p
      invariant p'.tasksDone == p'.tasksTotal ==>
        && p'.threads[0].queue == []
        && p'.tasksTotal == if p.tasksDone < p.tasksTotal then Max(p.tasksTotal, SpawnLimit) else p.tasksTotal
      decreases p'.tasksTotal - p'.tasksDone
    {
      p', calls := DrainOwnQueue(p', 0, rand, calls);
      SingleThreadPending(p');
    }
  }

  /** The tasks `main` submits, as they lie in the queue after k pushes:
      arguments k down to 1, the last pushed at the head. */
  function Initial(k: nat): (ts: seq<Task>)
    ensures |ts| == k
    ensures forall j | 0 <= j < k :: ts[j] == Task(LittleWork, k - j)
  {
    if k == 0 then [] else [Task(LittleWork, k)] + Initial(k - 1)
  }

  /** The submission loop of `main`, with thread 0's queue lock held: push
      `initial` tasks whose arguments are 1 .. initial onto thread 0's queue.
      Each is counted as submitted, the last one sits at the head, and no
      other thread is touched. */
  method SubmitInitial(p: Pool, initial: nat) returns (p': Pool)
    requires Accounted(p) && 0 < |p.threads| && p.threads[0].locked
    ensures Accounted(p') && |p'.threads| == |p.threads| && p'.threads[0].locked
    ensures p'.tasksTotal == p.tasksTotal + initial && p'.tasksDone == p.tasksDone
    ensures p'.threads[0].queue == Initial(initial) + p.threads[0].queue
    ensures p'.threads[0].tasksDone == p.threads[0].tasksDone
    ensures forall j | 1 <= j < |p.threads| :: p'.threads[j] == p.threads[j]
  {
    p' := p;
    var k := 0;
    while k < initial
      invariant 0 <= k <= initial
      invariant Accounted(p') && |p'.threads| == |p.threads| && p'.threads[0].locked
      invariant p'.tasksTotal == p.tasksTotal + k && p'.tasksDone == p.tasksDone
      invariant p'.threads[0].queue == Initial(k) + p.threads[0].queue
      invariant p'.threads[0].tasksDone == p.threads[0].tasksDone
      invariant forall j | 1 <= j < |p.threads| :: p'.threads[j] == p.threads[j]
    {
      var node := TaskNode(Task(LittleWork, k + 1), []);
      PushKeepsAccounted(p', 0, node);
      p' := Push(p', 0, node);
      k := k + 1;
    }
  }

  /** The submission part of `main` on a freshly initialised pool: take
      thread 0's queue lock, push `initial` tasks whose arguments are
      1 .. initial, release the lock. */
  method SubmitUnderLock(p: Pool, initial: nat) returns (p': Pool)
    requires Accounted(p) && Runnable(p)
    requires p.tasksDone == 0 && p.tasksTotal == 0 && p.threads[0].queue == []
    ensures Accounted(p') && Runnable(p') && |p'.threads| == |p.threads|
    ensures p'.tasksDone == 0 && p'.tasksTotal == initial
    ensures p'.threads[0].queue == Initial(initial)
    ensures forall j | 1 <= j < |p.threads| :: p'.threads[j] == p.threads[j]
  {
    LockingKeepsAccounted(p, 0, true);
    var held := Lock(p, 0);
    var submitted := SubmitInitial(held, initial);
    LockingKeepsAccounted(submitted, 0, false);
    p' := Unlock(submitted, 0);
    assert Initial(initial) + [] == Initial(initial);
    forall j | 0 <= j < |p'.threads|
      ensures !p'.threads[j].locked
    {
      if j > 0 {
        assert p'.threads[j] == submitted.threads[j] == held.threads[j] == p.threads[j];
      }
    }
  }

  /** The start of `main`: `tpool_init(childCount)`, then the submission of
      `initial` tasks to thread 0 under its queue lock. Thread 0 holds those
      tasks, last pushed first; every other thread is as `tpool_init` left
      it. */
  method StartMain(childCount: int, initial: nat) returns (p: Pool)
    requires 0 <= childCount < IntMax
    ensures Accounted(p) && Runnable(p) && |p.threads| == childCount + 1
    ensures p.tasksDone == 0 && p.tasksTotal == initial
    ensures p.threads[0].queue == Initial(initial)
    ensures forall j | 1 <= j < |p.threads| :: p.threads[j] == Thread(j, [], false, 0, 0)
  {
    var initialised := PoolInit(childCount);
    p := SubmitUnderLock(initialised, initial);
  }

  /** `main` for a pool without child threads: submit `initial` tasks, then
      wait. Every task submitted is done, and the pool was given
      max(initial, 10000) tasks. */
  method RunMain(initial: nat, rand: nat -> nat) returns (p: Pool)
    requires 1 <= initial
    ensures Accounted(p)
    ensures p.tasksDone == p.tasksTotal == Max(initial, SpawnLimit)
  {
    var started := StartMain(0, initial);
    p := Wait(started, rand);
  }
}

=== FILE: wrappers.dfy ===
/** A minimal optional value, used where the C code returns a NULL pointer or
    a `false` status instead of a value. */
module Wrappers {

  datatype Option<+T> = None | Some(value: T) {

    /** The carried value, or `default` when there is none. */
    function GetOr(default: T): T {
      match this
      case Some(v) => v
      case None => default
    }
  }
}
